=== FILE: README.md ===
# Toll-booth plate processing, modelled in Dafny

This project models the core of a desktop toll system. The system detects
licence plates in a photo, reads their text, looks each plate up in a
vehicle registry and charges a fixed toll of 10.00 against the vehicle's
balance. Every plate it reads is written to a toll log. A form lets the
operator add, update and delete registered vehicles.

The model is functional. The registry is a `seq<Vehicle>` and the log is a
`seq<LogEntry>`. Amounts are integer cents.

The files are:

- `wrappers.dfy`: `Option` and `Result`.
- `plates.dfy`: plate-text normalisation for recognised text, and the
  `strip()`/`upper()` cleaning of form fields.
- `registry.dfy`: the vehicle record, the balance column, the lookup
  `_find_vehicle`, the delete filter, and the registry invariant (unique
  plates, no negative balance).
- `tolls.dfy`:
  - the per-plate state machine `_process_toll_for_plate`;
  - the log record `_log_toll_transaction`;
  - the batch loop over the plates of one image;
  - the region filter and the outcome of one image pass.
- `forms.dfy`: `add_vehicle`, `update_vehicle` and `delete_vehicle`,
  together with their validation.
- `scenarios.dfy`: worked examples on the registry the application seeds on
  first start.

The balance column is a `BalanceField`, which takes one of three forms:

- `TwoDecimals(c)`: written by the form as `f"{balance:.2f}"`;
- `FloatText(c)`: written by a toll charge with `str()`;
- `NotNumeric(text)`: text that `float()` rejects.

A charge therefore visibly changes how the balance is written.

`float()` on form input is the parameter `parse`. It returns cents, or
`None` where `float()` raises `ValueError`.

## Model

| member | source | states |
|---|---|---|
| Plates.Concat | main.py:218 | joining no fragments gives the empty text, and joining one fragment gives that fragment |
| Plates.ConcatAppend | main.py:218 | joining two lists of fragments one after the other is the concatenation of the two joins |
| Plates.KeepAlnum | main.py:218 | the alphanumeric filter keeps only alphanumeric characters and never lengthens the text |
| Plates.KeepAlnumAppend | main.py:218 | the filter works character by character: filtering two texts one after the other is the concatenation of the two filtered texts |
| Plates.Upper | main.py:218 | upper-casing keeps the length and leaves no lower-case letter |
| Plates.UpperFixed | main.py:381 | text with no lower-case letter is unchanged by upper-casing, so upper-casing twice is upper-casing once |
| Plates.UpperKeepsSpace | main.py:381 | upper-casing turns no whitespace into other text and no other text into whitespace |
| Plates.Normalize | main.py:218 | the text read from one region is upper-case letters and digits only, and no longer than the joined fragments |
| Plates.NormalizeChar | main.py:218 | per character: an alphanumeric character contributes its upper-case form and any other character contributes nothing |
| Plates.NormalizeAppend | main.py:218 | normalisation is compositional: joined fragments normalise to the concatenation of their normalised parts |
| Plates.NormalizeEmpty | main.py:218-220 | a region's text normalises to nothing exactly when its joined text holds no alphanumeric character |
| Plates.NormalizeIdempotent | main.py:218 | normalising a normalised plate changes nothing |
| Plates.KeepAlnumEmpty | main.py:218 | the alphanumeric filter keeps nothing exactly when no character is alphanumeric |
| Plates.KeepAlnumOfAlnum | main.py:218 | the filter leaves alphanumeric text unchanged |
| Plates.TrimStartSpec | main.py:381-384 | leading trimming removes exactly a run of whitespace and stops at the first other character |
| Plates.TrimEndSpec | main.py:381-384 | trailing trimming removes exactly a run of whitespace and stops at the last other character |
| Plates.Strip | main.py:381-384 | a stripped field is never longer than the field; the exact characterisation is StripSegment |
| Plates.StripSegment | main.py:381-384 | `strip()` returns the segment between the leading and trailing whitespace, and that segment has no whitespace at either end |
| Plates.StripEmpty | main.py:386-388 | a field is blank after stripping exactly when it is all whitespace |
| Plates.StripFixed | main.py:381-384 | text with no whitespace at either end is returned unchanged |
| Plates.StripIdempotent | main.py:381-384 | stripping twice is stripping once |
| Plates.StripPadded | main.py:381-384 | one space on either side of a stripped text is removed again |
| Plates.CleanPlate | main.py:381 | the cleaned plate has the stripped field's length, has nothing left to strip and no lower-case letter, and is empty exactly when the field was all whitespace |
| Plates.CleanPlateIdempotent | main.py:445 | cleaning a cleaned plate changes nothing, so a record whose plate the form wrote, saved again without edits, compares equal to its original plate |
| Registry.ParseBalance | main.py:257 | `float()` on the balance column fails exactly on non-numeric text, and either numeric form reads back the cents it holds |
| Registry.FindVehicle | main.py:281-285 | a returned index holds a record with exactly the key |
| Registry.FindFirst | main.py:281-285 | the index returned is the first match, and there is none exactly when no record has the key |
| Registry.FindUnique | main.py:281-285 | under unique plates the lookup returns index i exactly when record i has the key |
| Registry.FindSamePlates | main.py:281-285 | the lookup depends only on the sequence of plates |
| Registry.TotalUpdate | main.py:259-260 | replacing one record changes the registry total by the difference of the two balances |
| Registry.Without | main.py:467 | the delete filter keeps no record with the target plate and never grows the registry |
| Registry.WithoutMembers | main.py:467 | a record survives the delete filter exactly when it was present and has another plate |
| Registry.WithoutAbsent | main.py:467 | filtering out a plate nobody has leaves the registry unchanged |
| Registry.WithoutAppend | main.py:467 | the filter distributes over concatenation |
| Registry.WithoutUnique | main.py:467 | under unique plates the filter removes exactly the record the lookup finds and keeps the rest in order |
| Registry.WithoutWellFormed | main.py:467 | the filter keeps plates unique and balances non-negative |
| Tolls.Basename | main.py:293 | the logged image reference holds no '/' |
| Tolls.BasenameSuffix | main.py:293 | the base name is the tail of the path, and whatever precedes it ends in '/' |
| Tolls.BasenameJoin | main.py:287-293 | the log keeps a crop's file name without its directory |
| Tolls.Record | main.py:287-295 | a log entry holds the fixed 10.00 toll whatever the status, the given clock reading, plate and status, and as image reference the evidence path's base name, which holds no '/' |
| Tolls.Decide | main.py:248-275 | the row names the plate; the registry keeps its length; the plate is Unregistered exactly when the lookup finds nothing; only Auto-Paid changes the registry |
| Tolls.ProcessPlate | main.py:247-295 | each plate appends exactly one log entry and keeps the earlier ones; the entry carries the plate, the clock reading, the fixed 10.00 toll whatever the outcome, the row's status and the evidence file name; the registry keeps its length |
| Tolls.ProcessPlateDecision | main.py:248-277 | Unregistered exactly when no record has the plate; only Auto-Paid changes the registry |
| Tolls.ProcessPlateMatched | main.py:253-272 | for a registered plate the first matching record's owner is reported, and Invalid Balance happens exactly when its balance is not a number |
| Tolls.ChargeExact | main.py:257-268 | with a numeric balance: Auto-Paid exactly when it covers the toll, and then the matched record alone is rewritten (by `str()`) with exactly one toll less, never below zero; otherwise Low Balance with the registry untouched |
| Tolls.ProcessPlateKeepsIdentity | main.py:247-277 | toll processing never changes a plate, an owner or a vehicle type |
| Tolls.ProcessPlateWellFormed | main.py:247-277 | toll processing keeps plates unique and balances non-negative |
| Tolls.ProcessPlateLedger | main.py:259-262 | money is conserved: the registry total drops by exactly the toll on Auto-Paid and is unchanged otherwise |
| Tolls.UnreachablePlate | main.py:281-285 | a registered plate that is not upper-case alphanumeric can never be matched by a plate read from an image |
| Tolls.ProcessAll | main.py:232-235 | the batch appends one log entry and one row per plate, keeps the earlier log, and keeps the registry's length |
| Tolls.ProcessAllEntries | main.py:232-235 | the k-th plate yields the k-th row and the k-th new log entry, and they agree on plate, time, toll, status and evidence |
| Tolls.ProcessAllKeepsIdentity | main.py:232-235 | plates, owners and types survive a whole batch |
| Tolls.ProcessAllWellFormed | main.py:232-235 | a batch keeps the registry invariant |
| Tolls.ProcessAllLedger | main.py:232-235 | over a batch, the registry total drops by the toll once per Auto-Paid entry logged |
| Tolls.ChargeOnce | main.py:257-262 | one pass of a vehicle whose balance covers the toll is Auto-Paid, the lookup still finds the vehicle where it was, and the balance is one toll lower |
| Tolls.RepeatedCharges | main.py:232-262 | repeated passes of one vehicle whose balance covers them are all Auto-Paid, and the balance ends exactly one toll lower per pass |
| Tolls.CollectPlates | main.py:199-221 | the plates handed to the toll step are non-empty upper-case alphanumeric text, at most one per region |
| Tolls.CollectOne | main.py:207-221 | a region yields a plate exactly when its crop is non-empty and its text has an alphanumeric character |
| Tolls.CollectAppend | main.py:199-221 | regions are filtered independently and in order |
| Tolls.ProcessImage | main.py:177-235 | an unreadable image is reported as unreadable, a missing box list as no objects, and boxes with no readable plate as no plates read, and each of these leaves registry and log untouched; the run is processed exactly when some plate was collected, and then the log grows by one entry per collected plate, keeps its earlier entries, and the results table holds one row per new entry; the registry keeps its length |
| Tolls.ProcessImageWellFormed | main.py:177-235 | processing an image keeps the registry invariant |
| Tolls.ProcessImageEntries | main.py:230-234 | on a decoded image with boxes, each collected plate is charged in order against the registry the previous plate left: the k-th new log entry and the k-th row name the k-th plate, the entry carries the row's status, the 10.00 toll and the crop's file name, and the registry total drops by the toll once per Auto-Paid entry logged |
| Forms.Validate | main.py:381-397 | blank field, then non-numeric balance, then negative balance, in that order; a valid form yields the stripped and upper-cased plate, the stripped owner and type, and a two-decimal balance |
| Forms.AddVehicle | main.py:380-405 | validation errors pass through; the add succeeds exactly when the form is valid and its plate is not registered, and then appends exactly that record; a taken plate is refused as a duplicate |
| Forms.AddWellFormed | main.py:380-405 | adding keeps plates unique and balances non-negative |
| Forms.UpdateVehicle | main.py:413-454 | no selection, then an invalid form, then a vanished selected plate, then a new plate another record holds are refused, in that order; the update succeeds exactly when the selected plate is found and the new plate is either unchanged or unregistered, and then only the found record is overwritten |
| Forms.UpdateWellFormed | main.py:413-454 | updating keeps plates unique and balances non-negative |
| Forms.DeleteVehicle | main.py:458-468 | no selection is refused; declining changes nothing; a confirmed delete removes every record with the selected plate and keeps every other record |
| Forms.DeleteWellFormed | main.py:458-468 | deleting keeps the registry invariant |
| Forms.DeleteExactlyOne | main.py:458-468 | under unique plates a confirmed delete removes exactly the one record the lookup finds |
| Forms.AddThenDelete | main.py:380-468 | deleting a freshly added vehicle restores the registry |
| Scenarios.NormalizeExample | main.py:218 | fragments "h-" and "2" normalise to "H2" |
| Scenarios.SeedChargedOnce | main.py:247-295 | the seed car with 50.00 is Auto-Paid once: 40.00 is written by `str()` and one 10.00 log row names the crop file |
| Scenarios.EvidenceName | main.py:211 | the crop saved as `cropped_objects_toll_system/cropped_gate.jpg_0.jpg` is logged as `cropped_gate.jpg_0.jpg` |
| Scenarios.SeedFivePasses | main.py:232-262 | five passes take the seed car from 50.00 to 0.00, all Auto-Paid (the test is `>=`) |
| Scenarios.SeedSixthPass | main.py:259-268 | at 0.00 the next pass is Low Balance and changes nothing |
| Scenarios.UnregisteredExample | main.py:273-275 | an unknown plate is logged Unregistered with the full toll and touches no record |
| Scenarios.CorruptBalanceExample | main.py:269-272 | a balance of "N/A" gives Invalid Balance, shows the raw text and changes nothing |
| Scenarios.AddedPlateUnreachable | main.py:381 | a plate registered with a space or dash is stored as typed and can never be matched by a plate read from an image |
| Scenarios.StatusTextsDistinct | main.py:263-274 | the four status texts written to the log are pairwise distinct |

## Left out

- The GUI is left out: tkinter widgets, message boxes, the status bar, the results table widget and its refresh.
  - The results table is modelled as the `Row` sequence.
  - The tree selection becomes an `Option<string>` input.
  - The delete confirmation becomes a `bool`.
- YOLO detection, EasyOCR recognition and image decoding are foreign calls. They become the `Scene`/`Region` input: decodable or not, the box list or none, and per region whether the crop is empty, the recognised fragments and the saved crop path.
- CSV reading and writing (`_init_csv_files`, `_load_data`, `_save_data`) and `_cleanup_cropped_dir` are file I/O. The registry and log are in-memory sequences, and no save failure is modelled.
- The clock (`datetime.now()`) is an input string per plate.
- Floating point is left out.
  - Balances are exact integer cents.
  - `float()` on form text is the abstract `parse`.
  - Rounding, NaN and infinities from `float()` are not modelled, nor is the text `f"{:.2f}"` and `str()` produce. Only which of the two writers was used is kept.
- Plates.IsAlnum: `str.isalnum` and `str.upper` are modelled for ASCII only. Non-ASCII letters and digits, and case mappings that change length, are not modelled.
- Plates.Strip: the whitespace set is Python's for `str.strip()`. The function's own contract states only that the result is no longer than the input; the rest is in StripSegment.
- Registry.FindVehicle: the function's contract states only that a returned index matches the key; first-match and absence are in FindFirst.
- Tolls.ProcessPlate: the function's contract covers the log. The decision and the charge are stated in ProcessPlateDecision, ProcessPlateMatched and ChargeExact.
- Tolls.BasenameJoin: paths are taken to be '/'-separated, as `os.path` treats them on POSIX systems (main.py:211, main.py:293). On Windows `os.path.basename` also splits at a backslash and after a drive letter's colon; those separators are not modelled, so Basename, BasenameSuffix and BasenameJoin speak of '/' only.
- Tolls.Basename: the function's contract states that the name holds no '/'; that it is the tail after the last '/' is in BasenameSuffix.
- The "Unknown" status is the initial value in `_process_toll_for_plate`, and every path overwrites it, so it has no constructor.
- The "(Error)" and "(Paid)" suffixes of the displayed balance are `Shown` constructors rather than text.
- The message for an exception raised in the middle of a batch (main.py:240-244) is not modelled. An exception there would leave the earlier plates charged; the model has no such exception.
- Plates read from an image are reduced to upper-case letters and digits (main.py:218), but the registration and update forms only strip and upper-case the plate (main.py:381, main.py:419). A plate such as "MH 20" is therefore stored as typed and never matches a plate read from an image. The model keeps this behaviour, and Scenarios.AddedPlateUnreachable states the consequence.

=== FILE: forms.dfy ===
/** The vehicle-management form: add, update and delete with their
    validation. The form fields are raw text; `parse` stands for `float()`
    applied to the stripped balance text, giving the amount in cents or None
    when `float()` raises ValueError. */
module Forms {
  import opened Wrappers
  import opened Plates
  import opened Registry

  /** The four entry fields as typed. */
  datatype Form = Form(plate: string, owner: string, kind: string, balance: string)

  /** Why the form was refused; every refusal leaves the registry as it was. */
  datatype FormError =
    | NoSelection              // update or delete with no row selected
    | MissingField             // a field is blank after stripping
    | NotANumber               // the balance text does not read as a number
    | NegativeBalance          // the balance reads as a negative number
    | DuplicatePlate(plate: string)    // add: the plate is already registered
    | SelectedMissing(plate: string)   // update: the selected plate is no longer in the data
    | PlateTaken(plate: string)        // update: the new plate belongs to another record

  /** Every field holds something besides whitespace. */
  predicate Filled(f: Form) {
    Strip(f.plate) != [] && Strip(f.owner) != [] && Strip(f.kind) != [] && Strip(f.balance) != []
  }

  /** The checks `add_vehicle` and `update_vehicle` share, in their order:
      blank fields first, then a balance that does not read as a number,
      then a negative balance. On success, the record the form describes:
      plate stripped and upper-cased, owner and type stripped, balance
      written with two fraction digits. */
  function Validate(f: Form, parse: string -> Option<int>): (r: Result<Vehicle, FormError>)
    ensures !Filled(f) ==> r == Err(MissingField)
    ensures Filled(f) && parse(Strip(f.balance)).None? ==> r == Err(NotANumber)
    ensures Filled(f) && parse(Strip(f.balance)).Some? && parse(Strip(f.balance)).value < 0 ==>
      r == Err(NegativeBalance)
    ensures r.Ok? <==> Filled(f) && parse(Strip(f.balance)).Some? && parse(Strip(f.balance)).value >= 0
    ensures r.Ok? ==>
      && r.value.balance == TwoDecimals(parse(Strip(f.balance)).value)
      && NonNegative(r.value.balance)
      && r.value.plate == CleanPlate(f.plate) && r.value.plate != []
      && r.value.owner == Strip(f.owner) && r.value.owner != []
      && r.value.kind == Strip(f.kind) && r.value.kind != []
  {
    if !Filled(f) then Err(MissingField)
    else match parse(Strip(f.balance))
      case None => Err(NotANumber)
      case Some(c) =>
        if c < 0 then Err(NegativeBalance)
        else Ok(Vehicle(CleanPlate(f.plate), Strip(f.owner), Strip(f.kind), TwoDecimals(c)))
  }

  /** `add_vehicle`: a valid form whose plate is not yet registered appends
      exactly one record; anything else is refused. */
  function AddVehicle(reg: seq<Vehicle>, f: Form, parse: string -> Option<int>): (r: Result<seq<Vehicle>, FormError>)
    ensures Validate(f, parse).Err? ==> r == Err(Validate(f, parse).error)
    ensures r.Ok? <==> Validate(f, parse).Ok? && FindVehicle(reg, Validate(f, parse).value.plate).None?
    ensures Validate(f, parse).Ok? && r.Err? ==> r.error == DuplicatePlate(Validate(f, parse).value.plate)
    ensures r.Ok? ==> r.value == reg + [Validate(f, parse).value]
  {
    match Validate(f, parse)
    case Err(e) => Err(e)
    case Ok(v) =>
      if FindVehicle(reg, v.plate).Some? then Err(DuplicatePlate(v.plate))
      else Ok(reg + [v])
  }

  /** Adding keeps the registry invariant: unique plates, no negative balance. */
  lemma AddWellFormed(reg: seq<Vehicle>, f: Form, parse: string -> Option<int>)
    requires WellFormed(reg)
    requires AddVehicle(reg, f, parse).Ok?
    ensures WellFormed(AddVehicle(reg, f, parse).value)
  {
    var r := AddVehicle(reg, f, parse).value;
    var v := Validate(f, parse).value;
    FindFirst(reg, v.plate);
    assert r == reg + [v];
    forall i, j | 0 <= i < j < |r|
      ensures r[i].plate != r[j].plate
    {
      if j == |reg| {
        assert r[i] == reg[i];
      } else {
        assert r[i] == reg[i] && r[j] == reg[j];
      }
    }
  }

  /** `update_vehicle`: the record found under the selected row's plate is
      overwritten with the form's record, unless the form is invalid, the
      selected plate has vanished, or the plate is changed to one another
      record already holds. */
  function UpdateVehicle(reg: seq<Vehicle>, selected: Option<string>, f: Form, parse: string -> Option<int>)
    : (r: Result<seq<Vehicle>, FormError>)
    ensures selected.None? ==> r == Err(NoSelection)
    ensures selected.Some? && Validate(f, parse).Err? ==> r == Err(Validate(f, parse).error)
    ensures selected.Some? && Validate(f, parse).Ok? && FindVehicle(reg, selected.value).None? ==>
      r == Err(SelectedMissing(selected.value))
    ensures
      (&& selected.Some?
       && Validate(f, parse).Ok?
       && FindVehicle(reg, selected.value).Some?
       && Validate(f, parse).value.plate != selected.value
       && FindVehicle(reg, Validate(f, parse).value.plate).Some?)
      ==> r == Err(PlateTaken(Validate(f, parse).value.plate))
    ensures r.Ok? <==>
      && selected.Some?
      && Validate(f, parse).Ok?
      && FindVehicle(reg, selected.value).Some?
      && (Validate(f, parse).value.plate == selected.value || FindVehicle(reg, Validate(f, parse).value.plate).None?)
    ensures r.Ok? ==>
      var i := FindVehicle(reg, selected.value).value;
      && |r.value| == |reg|
      && r.value[i] == Validate(f, parse).value
      && forall j :: 0 <= j < |reg| && j != i ==> r.value[j] == reg[j]
  {
    match selected
    case None => Err(NoSelection)
    case Some(original) =>
      match Validate(f, parse)
      case Err(e) => Err(e)
      case Ok(v) =>
        match FindVehicle(reg, original)
        case None => Err(SelectedMissing(original))
        case Some(i) =>
          if v.plate != original && FindVehicle(reg, v.plate).Some? then Err(PlateTaken(v.plate))
          else Ok(reg[i := v])
  }

  /** Updating keeps the registry invariant. */
  lemma UpdateWellFormed(reg: seq<Vehicle>, selected: Option<string>, f: Form, parse: string -> Option<int>)
    requires WellFormed(reg)
    requires UpdateVehicle(reg, selected, f, parse).Ok?
    ensures WellFormed(UpdateVehicle(reg, selected, f, parse).value)
  {
    var r := UpdateVehicle(reg, selected, f, parse).value;
    var original := selected.value;
    var i := FindVehicle(reg, original).value;
    var v := Validate(f, parse).value;
    FindFirst(reg, v.plate);
    forall a, b | 0 <= a < b < |r|
      ensures r[a].plate != r[b].plate
    {
      if a != i && b != i {
        assert r[a] == reg[a] && r[b] == reg[b];
      } else if a == i {
        assert r[b] == reg[b];
        if v.plate == original {
          assert reg[i].plate == original;
        } else {
          assert FindVehicle(reg, v.plate).None?;
        }
      } else {
        assert r[a] == reg[a];
        if v.plate == original {
          assert reg[i].plate == original;
        } else {
          assert FindVehicle(reg, v.plate).None?;
        }
      }
    }
    forall j | 0 <= j < |r|
      ensures NonNegative(r[j].balance)
    {
      if j != i {
        assert r[j] == reg[j];
      }
    }
  }

  /** `delete_vehicle`: with a row selected and the deletion confirmed, every
      record carrying the selected plate goes; declining changes nothing. */
  function DeleteVehicle(reg: seq<Vehicle>, selected: Option<string>, confirmed: bool)
    : (r: Result<seq<Vehicle>, FormError>)
    ensures selected.None? <==> r == Err(NoSelection)
    ensures selected.Some? && !confirmed ==> r == Ok(reg)
    ensures selected.Some? && confirmed ==>
      && r.Ok?
      && (forall k :: 0 <= k < |r.value| ==> r.value[k].plate != selected.value)
      && (forall j :: 0 <= j < |reg| && reg[j].plate != selected.value ==> reg[j] in r.value)
  {
    match selected
    case None => Err(NoSelection)
    case Some(target) =>
      if confirmed then
        WithoutMembers(reg, target);
        Ok(Without(reg, target))
      else Ok(reg)
  }

  /** Deleting keeps the registry invariant. */
  lemma DeleteWellFormed(reg: seq<Vehicle>, selected: Option<string>, confirmed: bool)
    requires WellFormed(reg)
    requires DeleteVehicle(reg, selected, confirmed).Ok?
    ensures WellFormed(DeleteVehicle(reg, selected, confirmed).value)
  {
    if confirmed {
      WithoutWellFormed(reg, selected.value);
    }
  }

  /** With unique plates, a confirmed delete removes exactly the one record
      the lookup finds and keeps the others in their order. */
  lemma DeleteExactlyOne(reg: seq<Vehicle>, target: string, i: nat)
    requires UniquePlates(reg)
    requires FindVehicle(reg, target) == Some(i)
    ensures DeleteVehicle(reg, Some(target), true) == Ok(reg[..i] + reg[i + 1..])
  {
    WithoutUnique(reg, target, i);
  }

  /** Deleting a freshly added vehicle restores the registry: the two
      operations are inverse. */
  lemma AddThenDelete(reg: seq<Vehicle>, f: Form, parse: string -> Option<int>)
    requires AddVehicle(reg, f, parse).Ok?
    ensures var plate := Validate(f, parse).value.plate;
      DeleteVehicle(AddVehicle(reg, f, parse).value, Some(plate), true) == Ok(reg)
  {
    var v := Validate(f, parse).value;
    FindFirst(reg, v.plate);
    assert FindVehicle(reg, v.plate).None?;
    assert AddVehicle(reg, f, parse).value == reg + [v];
    WithoutAppend(reg, [v], v.plate);
    WithoutAbsent(reg, v.plate);
    assert Without([v], v.plate) == [] + Without([], v.plate);
    assert Without(reg + [v], v.plate) == reg;
  }
}

=== FILE: plates.dfy ===
/** Plate text: the normalisation applied to recognised text fragments before
    a registry lookup, and the strip/upper-case cleaning of form fields. */
module Plates {

  /** The characters `str.isalnum` keeps, restricted to ASCII letters and digits. */
  predicate IsAlnum(c: char) {
    ('A' <= c <= 'Z') || ('a' <= c <= 'z') || ('0' <= c <= '9')
  }

  /** A character a normalised plate may contain. */
  predicate IsKeyChar(c: char) {
    ('A' <= c <= 'Z') || ('0' <= c <= '9')
  }

  /** Upper-case alphanumeric text, the only shape normalisation produces. */
  predicate IsPlateText(p: string) {
    forall i :: 0 <= i < |p| ==> IsKeyChar(p[i])
  }

  /** `str.upper` on one character, for ASCII lower-case letters. */
  function ToUpper(c: char): char {
    if 'a' <= c <= 'z' then (c as int - 32) as char else c
  }

  /** Text holding no ASCII lower-case letter. */
  predicate NoLower(s: string) {
    forall i :: 0 <= i < |s| ==> !('a' <= s[i] <= 'z')
  }

  /** `str.upper` on a whole string: same length, no lower-case letter left. */
  function Upper(s: string): (r: string)
    ensures |r| == |s|
    ensures NoLower(r)
  {
    seq(|s|, i requires 0 <= i < |s| => ToUpper(s[i]))
  }

  /** Upper-casing leaves text without lower-case letters as it is, so
      upper-casing twice is upper-casing once. */
  lemma UpperFixed(s: string)
    requires NoLower(s)
    ensures Upper(s) == s
  {
  }

  /** Upper-casing never turns whitespace into something else or back. */
  lemma UpperKeepsSpace(s: string)
    ensures forall i :: 0 <= i < |s| ==> (IsSpace(Upper(s)[i]) <==> IsSpace(s[i]))
  {
  }

  /** `"".join(fragments)`. */
  function Concat(fragments: seq<string>): (s: string)
    ensures fragments == [] ==> s == []
    ensures |fragments| == 1 ==> s == fragments[0]
  {
    if fragments == [] then [] else fragments[0] + Concat(fragments[1..])
  }

  /** `filter(str.isalnum, s)`: the alphanumeric characters of `s`, in order. */
  function KeepAlnum(s: string): (r: string)
    ensures |r| <= |s|
    ensures forall i :: 0 <= i < |r| ==> IsAlnum(r[i])
  {
    if s == [] then []
    else (if IsAlnum(s[0]) then [s[0]] else []) + KeepAlnum(s[1..])
  }

  /** The plate candidate read from one region: the fragments joined, every
      non-alphanumeric character dropped, the rest upper-cased. */
  function Normalize(fragments: seq<string>): (p: string)
    ensures IsPlateText(p)
    ensures |p| <= |Concat(fragments)|
  {
    Upper(KeepAlnum(Concat(fragments)))
  }

  lemma {:induction false} ConcatAppend(a: seq<string>, b: seq<string>)
    ensures Concat(a + b) == Concat(a) + Concat(b)
    decreases |a|
  {
    if a == [] {
      assert a + b == b;
    } else {
      assert (a + b)[1..] == a[1..] + b;
      ConcatAppend(a[1..], b);
    }
  }

  lemma {:induction false} KeepAlnumAppend(a: string, b: string)
    ensures KeepAlnum(a + b) == KeepAlnum(a) + KeepAlnum(b)
    decreases |a|
  {
    if a == [] {
      assert a + b == b;
    } else {
      assert (a + b)[1..] == a[1..] + b;
      KeepAlnumAppend(a[1..], b);
    }
  }

  /** Text with no non-alphanumeric character passes the filter unchanged. */
  lemma {:induction false} KeepAlnumOfAlnum(s: string)
    requires forall i :: 0 <= i < |s| ==> IsAlnum(s[i])
    ensures KeepAlnum(s) == s
    decreases |s|
  {
    if s != [] {
      KeepAlnumOfAlnum(s[1..]);
    }
  }

  /** The filter keeps nothing exactly when the text holds no alphanumeric character. */
  lemma {:induction false} KeepAlnumEmpty(s: string)
    ensures KeepAlnum(s) == [] <==> forall i :: 0 <= i < |s| ==> !IsAlnum(s[i])
    decreases |s|
  {
    if s != [] {
      KeepAlnumEmpty(s[1..]);
      assert forall i :: 1 <= i < |s| ==> s[i] == s[1..][i - 1];
    }
  }

  /** Normalisation works fragment by fragment: normalising two lists of
      fragments read one after the other is the concatenation of the two
      normalised texts. */
  lemma NormalizeAppend(a: seq<string>, b: seq<string>)
    ensures Normalize(a + b) == Normalize(a) + Normalize(b)
  {
    ConcatAppend(a, b);
    KeepAlnumAppend(Concat(a), Concat(b));
  }

  /** Per character: an alphanumeric character contributes its upper-case
      form and any other character contributes nothing. With
      NormalizeAppend this pins the normalisation down completely. */
  lemma NormalizeChar(c: char)
    ensures Normalize([[c]]) == if IsAlnum(c) then [ToUpper(c)] else []
  {
  }

  /** A region is discarded exactly when its joined text holds no
      alphanumeric character at all. */
  lemma {:induction false} NormalizeEmpty(fragments: seq<string>)
    ensures Normalize(fragments) == []
        <==> (forall i :: 0 <= i < |Concat(fragments)| ==> !IsAlnum(Concat(fragments)[i]))
  {
    var t := Concat(fragments);
    KeepAlnumEmpty(t);
    assert |Normalize(fragments)| == |KeepAlnum(t)|;
    // Ties the postcondition's occurrences of Concat(fragments) to t; the
    // verifier does not connect them unaided.
    assert t == Concat(fragments);
  }

  /** Normalising an already normalised plate gives it back unchanged. */
  lemma NormalizeIdempotent(fragments: seq<string>)
    ensures Normalize([Normalize(fragments)]) == Normalize(fragments)
  {
    var p := Normalize(fragments);
    assert Concat([p]) == p + Concat([]);
    assert Concat([p]) == p;
    assert KeepAlnum(p) == p by {
      assert forall i :: 0 <= i < |p| ==> IsKeyChar(p[i]);
      KeepAlnumOfAlnum(p);
    }
    assert Upper(p) == p;
    assert Normalize([p]) == Upper(KeepAlnum(Concat([p])));
  }

  /** The whitespace `str.strip` removes: the ASCII controls tab to carriage
      return, the separators 0x1C to 0x1F, the space, and the Unicode space
      characters. */
  predicate IsSpace(c: char) {
    || ('\t' <= c <= '\r')
    || ('\U{1C}' <= c <= ' ')
    || c == '\U{85}' || c == '\U{A0}' || c == '\U{1680}'
    || ('\U{2000}' <= c <= '\U{200A}')
    || c == '\U{2028}' || c == '\U{2029}' || c == '\U{202F}'
    || c == '\U{205F}' || c == '\U{3000}'
  }

  /** `s` with its leading whitespace removed. */
  function TrimStart(s: string): (r: string)
    ensures |r| <= |s|
  {
    if s != [] && IsSpace(s[0]) then TrimStart(s[1..]) else s
  }

  /** `s` with its trailing whitespace removed. */
  function TrimEnd(s: string): (r: string)
    ensures |r| <= |s|
  {
    if s != [] && IsSpace(s[|s| - 1]) then TrimEnd(s[..|s| - 1]) else s
  }

  /** Trimming the start drops a run of whitespace and stops at the first
      other character. */
  lemma {:induction false} TrimStartSpec(s: string)
    ensures TrimStart(s) == s[|s| - |TrimStart(s)|..]
    ensures forall k :: 0 <= k < |s| - |TrimStart(s)| ==> IsSpace(s[k])
    ensures TrimStart(s) == [] || !IsSpace(TrimStart(s)[0])
    decreases |s|
  {
    if s != [] && IsSpace(s[0]) {
      TrimStartSpec(s[1..]);
    }
  }

  /** Trimming the end drops a run of whitespace and stops at the last
      other character. */
  lemma {:induction false} TrimEndSpec(s: string)
    ensures TrimEnd(s) == s[..|TrimEnd(s)|]
    ensures forall k :: |TrimEnd(s)| <= k < |s| ==> IsSpace(s[k])
    ensures TrimEnd(s) == [] || !IsSpace(TrimEnd(s)[|TrimEnd(s)| - 1])
    decreases |s|
  {
    if s != [] && IsSpace(s[|s| - 1]) {
      TrimEndSpec(s[..|s| - 1]);
    }
  }

  /** `str.strip`: `s` without its leading and trailing whitespace. */
  function Strip(s: string): (r: string)
    ensures |r| <= |s|
  {
    TrimEnd(TrimStart(s))
  }

  /** What stripping removes is whitespace at the two ends and nothing else:
      the result is the segment of `s` between them, and it neither starts
      nor ends with whitespace. */
  lemma StripSegment(s: string)
    ensures var i := |s| - |TrimStart(s)|;
      && i + |Strip(s)| <= |s|
      && Strip(s) == s[i..i + |Strip(s)|]
      && (forall k :: 0 <= k < i ==> IsSpace(s[k]))
      && (forall k :: i + |Strip(s)| <= k < |s| ==> IsSpace(s[k]))
      && (Strip(s) == [] || (!IsSpace(Strip(s)[0]) && !IsSpace(Strip(s)[|Strip(s)| - 1])))
  {
    TrimStartSpec(s);
    TrimEndSpec(TrimStart(s));
  }

  /** Text that neither starts nor ends with whitespace is left as it is. */
  lemma StripFixed(s: string)
    requires s == [] || (!IsSpace(s[0]) && !IsSpace(s[|s| - 1]))
    ensures Strip(s) == s
  {
  }

  /** Stripping twice is stripping once. */
  lemma StripIdempotent(s: string)
    ensures Strip(Strip(s)) == Strip(s)
  {
    StripSegment(s);
    StripFixed(Strip(s));
  }

  /** One space on either side of a stripped text is removed again. */
  lemma StripPadded(t: string)
    requires t != [] && !IsSpace(t[0]) && !IsSpace(t[|t| - 1])
    ensures Strip(" " + t + " ") == t
  {
    var padded := " " + t + " ";
    assert padded[1..] == t + " ";
    assert TrimStart(padded) == TrimStart(t + " ");
    assert (t + " ")[..|t|] == t;
    assert TrimEnd(t + " ") == TrimEnd(t);
    StripFixed(t);
  }

  /** A field is blank after stripping exactly when it is all whitespace. */
  lemma StripEmpty(s: string)
    ensures Strip(s) == [] <==> forall k :: 0 <= k < |s| ==> IsSpace(s[k])
  {
    StripSegment(s);
    if Strip(s) != [] {
      var i := |s| - |TrimStart(s)|;
      assert s[i] == Strip(s)[0];
    }
  }

  /** The plate cleaning of the registration form: `strip().upper()`. The
      result has nothing left to strip and no lower-case letter, and it is
      empty exactly when the field was all whitespace. */
  function CleanPlate(s: string): (p: string)
    ensures |p| == |Strip(s)|
    ensures Strip(p) == p
    ensures NoLower(p)
    ensures p == [] <==> forall k :: 0 <= k < |s| ==> IsSpace(s[k])
  {
    StripSegment(s);
    StripEmpty(s);
    UpperKeepsSpace(Strip(s));
    StripFixed(Upper(Strip(s)));
    Upper(Strip(s))
  }

  /** Cleaning a cleaned plate changes nothing, so a record whose plate the
      form wrote keeps its plate when it is saved again without edits. */
  lemma CleanPlateIdempotent(s: string)
    ensures CleanPlate(CleanPlate(s)) == CleanPlate(s)
  {
  }
}

=== FILE: registry.dfy ===
/** The vehicle registry: an ordered sequence of records keyed by plate,
    searched linearly, plus the invariants the mutating operations keep. */
module Registry {
  import opened Wrappers

  /** What the balance column of a record holds. The two numeric forms differ
      only in how the number was written: the registration form writes two
      fraction digits, while a toll charge writes the float's plain `str()`.
      Amounts are integer cents. */
  datatype BalanceField =
    | TwoDecimals(cents: int)
    | FloatText(cents: int)
    | NotNumeric(text: string)   // text that `float()` refuses, such as "N/A"

  /** `float()` applied to the balance column: None when it raises ValueError. */
  function ParseBalance(b: BalanceField): (r: Option<int>)
    ensures r.None? <==> b.NotNumeric?
    ensures r.Some? ==> r.value == b.cents
  {
    match b
    case TwoDecimals(c) => Some(c)
    case FloatText(c) => Some(c)
    case NotNumeric(_) => None
  }

  datatype Vehicle = Vehicle(plate: string, owner: string, kind: string, balance: BalanceField)

  /** `_find_vehicle`: the index of the first record whose plate equals the
      key exactly (case-sensitive), or None when no record has it. */
  function FindVehicle(reg: seq<Vehicle>, plate: string): (r: Option<nat>)
    ensures r.Some? ==> r.value < |reg| && reg[r.value].plate == plate
  {
    if reg == [] then None
    else if reg[0].plate == plate then Some(0)
    else match FindVehicle(reg[1..], plate)
      case None => None
      case Some(i) => Some(i + 1)
  }

  /** The lookup finds the first record with the key, and finds nothing
      exactly when no record has it. */
  lemma {:induction false} FindFirst(reg: seq<Vehicle>, plate: string)
    ensures var r := FindVehicle(reg, plate);
      && (r.Some? ==> forall j :: 0 <= j < r.value ==> reg[j].plate != plate)
      && (r.None? <==> forall j :: 0 <= j < |reg| ==> reg[j].plate != plate)
    decreases |reg|
  {
    if reg != [] && reg[0].plate != plate {
      FindFirst(reg[1..], plate);
    }
  }

  /** No two records share a plate. */
  predicate UniquePlates(reg: seq<Vehicle>) {
    forall i, j :: 0 <= i < j < |reg| ==> reg[i].plate != reg[j].plate
  }

  /** A balance that reads as a number is not negative. */
  predicate NonNegative(b: BalanceField) {
    match ParseBalance(b)
    case None => true
    case Some(c) => c >= 0
  }

  /** The registry invariant: unique plates and no negative balance. */
  predicate WellFormed(reg: seq<Vehicle>) {
    && UniquePlates(reg)
    && forall i :: 0 <= i < |reg| ==> NonNegative(reg[i].balance)
  }

  /** Under unique plates the lookup finds a record exactly when it carries the key. */
  lemma FindUnique(reg: seq<Vehicle>, plate: string, i: nat)
    requires UniquePlates(reg)
    requires i < |reg|
    ensures FindVehicle(reg, plate) == Some(i) <==> reg[i].plate == plate
  {
    FindFirst(reg, plate);
  }

  /** The lookup depends on the plates alone: two registries listing the same
      plates in the same order give the same answer. */
  lemma {:induction false} FindSamePlates(a: seq<Vehicle>, b: seq<Vehicle>, plate: string)
    requires |a| == |b|
    requires forall j :: 0 <= j < |a| ==> a[j].plate == b[j].plate
    ensures FindVehicle(a, plate) == FindVehicle(b, plate)
    decreases |a|
  {
    if a != [] {
      FindSamePlates(a[1..], b[1..], plate);
    }
  }

  /** The value a balance contributes to the registry total (text that does
      not read as a number contributes nothing). */
  function Value(b: BalanceField): int {
    match ParseBalance(b)
    case None => 0
    case Some(c) => c
  }

  /** The sum of all readable balances, in cents. */
  function TotalCents(reg: seq<Vehicle>): int {
    if reg == [] then 0 else Value(reg[0].balance) + TotalCents(reg[1..])
  }

  /** Replacing one record changes the total by the difference of the two balances. */
  lemma {:induction false} TotalUpdate(reg: seq<Vehicle>, i: nat, v: Vehicle)
    requires i < |reg|
    ensures TotalCents(reg[i := v]) == TotalCents(reg) - Value(reg[i].balance) + Value(v.balance)
    decreases |reg|
  {
    if i > 0 {
      TotalUpdate(reg[1..], i - 1, v);
      assert reg[i := v][1..] == reg[1..][i - 1 := v];
    }
  }

  /** The list comprehension of `delete_vehicle`: the records whose plate
      differs from the target, in their original order. */
  function Without(reg: seq<Vehicle>, plate: string): (r: seq<Vehicle>)
    ensures |r| <= |reg|
    ensures forall k :: 0 <= k < |r| ==> r[k].plate != plate
  {
    if reg == [] then []
    else (if reg[0].plate != plate then [reg[0]] else []) + Without(reg[1..], plate)
  }

  /** Deleting keeps exactly the records with another plate. */
  lemma {:induction false} WithoutMembers(reg: seq<Vehicle>, plate: string)
    ensures forall v :: v in Without(reg, plate) <==> v in reg && v.plate != plate
    decreases |reg|
  {
    if reg != [] {
      WithoutMembers(reg[1..], plate);
      assert reg == [reg[0]] + reg[1..];
    }
  }

  lemma {:induction false} WithoutAppend(a: seq<Vehicle>, b: seq<Vehicle>, plate: string)
    ensures Without(a + b, plate) == Without(a, plate) + Without(b, plate)
    decreases |a|
  {
    if a == [] {
      assert a + b == b;
    } else {
      assert (a + b)[1..] == a[1..] + b;
      WithoutAppend(a[1..], b, plate);
    }
  }

  /** Deleting a plate nobody has leaves the registry as it was. */
  lemma {:induction false} WithoutAbsent(reg: seq<Vehicle>, plate: string)
    requires forall j :: 0 <= j < |reg| ==> reg[j].plate != plate
    ensures Without(reg, plate) == reg
    decreases |reg|
  {
    if reg != [] {
      WithoutAbsent(reg[1..], plate);
    }
  }

  /** A tail of a registry with unique plates has unique plates. */
  lemma UniqueTail(reg: seq<Vehicle>)
    requires reg != [] && UniquePlates(reg)
    ensures UniquePlates(reg[1..])
    ensures forall j :: 0 <= j < |reg[1..]| ==> reg[1..][j].plate != reg[0].plate
  {
  }

  /** With unique plates, deleting a registered plate removes exactly the
      record the lookup finds and keeps the others in order. */
  lemma {:induction false} WithoutUnique(reg: seq<Vehicle>, plate: string, i: nat)
    requires UniquePlates(reg)
    requires FindVehicle(reg, plate) == Some(i)
    ensures Without(reg, plate) == reg[..i] + reg[i + 1..]
    decreases |reg|
  {
    var tail := reg[1..];
    UniqueTail(reg);
    if i == 0 {
      WithoutAbsent(tail, plate);
      assert reg[..0] + reg[1..] == tail;
    } else {
      WithoutUniqueStep(reg, plate, i);
    }
  }

  lemma {:induction false} WithoutUniqueStep(reg: seq<Vehicle>, plate: string, i: nat)
    requires UniquePlates(reg)
    requires FindVehicle(reg, plate) == Some(i)
    requires i > 0
    ensures Without(reg, plate) == reg[..i] + reg[i + 1..]
    decreases |reg|, 0
  {
    var tail := reg[1..];
    UniqueTail(reg);
    assert FindVehicle(tail, plate) == Some(i - 1);
    WithoutUnique(tail, plate, i - 1);
    assert Without(reg, plate) == [reg[0]] + Without(tail, plate);
    assert reg[..i] == [reg[0]] + tail[..i - 1];
    assert reg[i + 1..] == tail[i..];
  }

  /** Deleting keeps the registry invariant. */
  lemma {:induction false} WithoutWellFormed(reg: seq<Vehicle>, plate: string)
    requires WellFormed(reg)
    ensures WellFormed(Without(reg, plate))
    decreases |reg|
  {
    if reg != [] {
      var rest := Without(reg[1..], plate);
      WithoutWellFormed(reg[1..], plate);
      WithoutMembers(reg[1..], plate);
      WithoutMembers(reg, plate);
      forall v | v in rest
        ensures v.plate != reg[0].plate
      {
        var j :| 0 <= j < |reg[1..]| && reg[1..][j] == v;
        assert reg[j + 1] == v;
      }
      var r := Without(reg, plate);
      forall i | 0 <= i < |r|
        ensures NonNegative(r[i].balance)
      {
        assert r[i] in reg;
      }
    }
  }
}

=== FILE: scenarios.dfy ===
/** Worked examples on the seed registry the application creates on first
    start: one car, plate MH20EE7777, balance 50.00. */
module Scenarios {
  import opened Wrappers
  import opened Plates
  import opened Registry
  import opened Tolls
  import opened Forms

  /** The registry written when no vehicle file exists yet. */
  function Seed(): seq<Vehicle> {
    [Vehicle("MH20EE7777", "Test User", "Car", TwoDecimals(5000))]
  }

  /** The file name of the first crop taken from an image named gate.jpg. */
  const CropName: string := "cropped_gate.jpg_0.jpg"

  /** A detection of the given plate, with its crop saved in the crop
      directory and a fixed clock reading. */
  function Sighting(plate: string): Detection {
    Detection(plate, "cropped_objects_toll_system" + "/" + CropName, "2024-01-01 08:00:00")
  }

  /** Recognised fragments with lower case and a dash normalise to upper-case
      alphanumeric text, across the fragment boundary. */
  lemma NormalizeExample()
    ensures Normalize(["h-", "2"]) == "H2"
  {
  }

  /** The seed car passing once: Auto-Paid, 50.00 becomes 40.00 (written by
      `str()`, not with two fraction digits), one log row of 10.00 whose
      image reference is the crop's file name. */
  lemma SeedChargedOnce()
    ensures var s := ProcessPlate(Seed(), [], Sighting("MH20EE7777"));
      && s.row.status == AutoPaid
      && s.registry == [Vehicle("MH20EE7777", "Test User", "Car", FloatText(4000))]
      && s.log == [LogEntry("2024-01-01 08:00:00", "MH20EE7777", 1000, AutoPaid, CropName)]
  {
    var d := Sighting("MH20EE7777");
    assert FindVehicle(Seed(), d.plate) == Some(0);
    ChargeExact(Seed(), [], d, 0, 5000);
    EvidenceName();
  }

  /** The log keeps the crop's file name without its directory. */
  lemma EvidenceName()
    ensures Basename(Sighting("MH20EE7777").evidence) == CropName
  {
    assert '/' !in CropName by {
      assert forall k :: 0 <= k < |CropName| ==> CropName[k] != '/';
    }
    BasenameJoin("cropped_objects_toll_system", CropName);
  }

  /** Five passes take 50.00 down to 0.00, all Auto-Paid: the fifth pays at
      a balance exactly equal to the toll because the test is `>=`. */
  lemma SeedFivePasses()
    ensures var b := ProcessAll(Seed(), [], seq(5, _ => Sighting("MH20EE7777")));
      && ParseBalance(b.registry[0].balance) == Some(0)
      && forall k :: 0 <= k < 5 ==> b.rows[k].status == AutoPaid
  {
    RepeatedCharges(Seed(), [], seq(5, _ => Sighting("MH20EE7777")), "MH20EE7777", 0, 5000);
  }

  /** A sixth pass at balance 0.00 is refused for low balance and changes nothing. */
  lemma SeedSixthPass(log: seq<LogEntry>)
    ensures var reg := [Vehicle("MH20EE7777", "Test User", "Car", FloatText(0))];
      var s := ProcessPlate(reg, log, Sighting("MH20EE7777"));
      s.row.status == LowBalance && s.registry == reg && |s.log| == |log| + 1
  {
    var reg := [Vehicle("MH20EE7777", "Test User", "Car", FloatText(0))];
    assert FindVehicle(reg, Sighting("MH20EE7777").plate) == Some(0);
  }

  /** An unregistered plate is logged as such and touches no record. */
  lemma UnregisteredExample()
    ensures var s := ProcessPlate(Seed(), [], Sighting("XX99ZZ0000"));
      && s.row.status == Unregistered
      && s.registry == Seed()
      && |s.log| == 1 && s.log[0].amountCents == TollCents
  {
  }

  /** A balance corrupted to "N/A" yields an invalid-balance entry and no change. */
  lemma CorruptBalanceExample()
    ensures var reg := [Vehicle("MH20EE7777", "Test User", "Car", NotNumeric("N/A"))];
      var s := ProcessPlate(reg, [], Sighting("MH20EE7777"));
      && s.row.status == InvalidBalance
      && s.registry == reg
      && s.row.balance == Unreadable("N/A")
      && |s.log| == 1
  {
  }

  /** The registration form only strips and upper-cases the plate, so it
      accepts a plate such as "MH 20" with an inner space or a dash; a plate
      registered that way is never matched by a plate read from an image. */
  lemma AddedPlateUnreachable(reg: seq<Vehicle>, f: Form, parse: string -> Option<int>, fragments: seq<string>)
    requires AddVehicle(reg, f, parse).Ok?
    requires !IsPlateText(CleanPlate(f.plate))
    ensures var r := AddVehicle(reg, f, parse).value;
      && r[|reg|].plate == CleanPlate(f.plate)
      && FindVehicle(r, Normalize(fragments)) != Some(|reg|)
  {
  }

  /** The log's status texts are pairwise distinct. */
  lemma StatusTextsDistinct(a: Status, b: Status)
    ensures StatusText(a) == StatusText(b) <==> a == b
  {
  }
}

=== FILE: tolls.dfy ===
/** The toll workflow: one recognised plate is matched against the registry,
    charged or refused, and logged; the plates read from one image are
    processed in order. */
module Tolls {
  import opened Wrappers
  import opened Plates
  import opened Registry

  /** DEFAULT_TOLL_AMOUNT (10.00) in cents: one fixed rate for every vehicle. */
  const TollCents: int := 1000

  /** The four outcomes a plate can have. */
  datatype Status = AutoPaid | LowBalance | InvalidBalance | Unregistered

  /** The status text written to the log. */
  function StatusText(s: Status): string {
    match s
    case AutoPaid => "Auto-Paid"
    case LowBalance => "Unpaid - Low Balance"
    case InvalidBalance => "Error - Invalid Balance"
    case Unregistered => "Unpaid - Unregistered"
  }

  /** One row of the toll log. The amount is always the fixed toll, whatever
      the outcome; the image reference is the evidence file's base name. */
  datatype LogEntry = LogEntry(timestamp: string, plate: string, amountCents: int, status: Status, imageRef: string)

  /** What the results table shows in its balance column: "N/A" for an
      unregistered plate, the balance read for a refused charge, the balance
      left after a paid one, and the raw text followed by "(Error)" when the
      balance does not read as a number. */
  datatype Shown = NotAvailable | Current(cents: int) | Paid(cents: int) | Unreadable(text: string)

  /** One row of the results table built while processing an image. */
  datatype Row = Row(plate: string, status: Status, owner: string, balance: Shown)

  /** A plate read from one region: the normalised text, the path of the
      cropped evidence image, and the clock reading taken when it is processed. */
  datatype Detection = Detection(plate: string, evidence: string, stamp: string)

  /** The state after processing one plate. */
  datatype Step = Step(registry: seq<Vehicle>, log: seq<LogEntry>, row: Row)

  /** The position just after the last '/' of a path, or 0 when it has none. */
  function NameStart(path: string): (k: nat)
    ensures k <= |path|
    ensures k > 0 ==> path[k - 1] == '/'
    ensures forall j :: k <= j < |path| ==> path[j] != '/'
  {
    if path == [] then 0
    else if path[|path| - 1] == '/' then |path|
    else NameStart(path[..|path| - 1])
  }

  /** `os.path.basename` for '/'-separated paths: everything after the last
      '/', which is the longest suffix holding no '/'. */
  function Basename(path: string): (b: string)
    ensures forall j :: 0 <= j < |b| ==> b[j] != '/'
  {
    path[NameStart(path)..]
  }

  /** The base name is the tail of the path: what precedes it is the
      directory part, empty or ending in '/'. */
  lemma BasenameSuffix(path: string)
    ensures |Basename(path)| <= |path|
    ensures Basename(path) == path[|path| - |Basename(path)|..]
    ensures |Basename(path)| < |path| ==> path[|path| - |Basename(path)| - 1] == '/'
  {
  }

  /** A file name placed in a directory comes back out of `Basename` intact. */
  lemma {:induction false} BasenameJoin(dir: string, name: string)
    requires '/' !in name
    ensures Basename(dir + "/" + name) == name
    decreases |name|
  {
    var path := dir + "/" + name;
    if name == [] {
      assert path[|path| - 1] == '/';
    } else {
      var init := name[..|name| - 1];
      assert path[..|path| - 1] == dir + "/" + init;
      assert '/' !in init by {
        assert forall c :: c in init ==> c in name;
      }
      BasenameJoin(dir, init);
      assert name == init + [name[|name| - 1]];
    }
  }

  /** `_log_toll_transaction`: the log entry for one decided plate. */
  function Record(d: Detection, status: Status): (e: LogEntry)
    ensures e.amountCents == TollCents
    ensures e.timestamp == d.stamp && e.plate == d.plate && e.status == status
    ensures e.imageRef == Basename(d.evidence)
  {
    LogEntry(d.stamp, d.plate, TollCents, status, Basename(d.evidence))
  }

  /** The registry after a plate is decided, and its results row. */
  datatype Outcome = Outcome(registry: seq<Vehicle>, row: Row)

  /** The decision part of `_process_toll_for_plate`, without the log. */
  function Decide(reg: seq<Vehicle>, plate: string): (o: Outcome)
    ensures o.row.plate == plate && |o.registry| == |reg|
    ensures o.row.status == Unregistered <==> FindVehicle(reg, plate).None?
    ensures o.row.status != AutoPaid ==> o.registry == reg
  {
    match FindVehicle(reg, plate)
    case None =>
      Outcome(reg, Row(plate, Unregistered, "N/A", NotAvailable))
    case Some(i) =>
      var v := reg[i];
      match ParseBalance(v.balance)
      case None =>
        Outcome(reg, Row(plate, InvalidBalance, v.owner, Unreadable(v.balance.text)))
      case Some(c) =>
        if c >= TollCents then
          Outcome(reg[i := v.(balance := FloatText(c - TollCents))], Row(plate, AutoPaid, v.owner, Paid(c - TollCents)))
        else
          Outcome(reg, Row(plate, LowBalance, v.owner, Current(c)))
  }

  /** `_process_toll_for_plate`: look the plate up, decide, charge on
      Auto-Paid, and append exactly one log entry, which records the toll
      amount whatever the outcome. */
  function ProcessPlate(reg: seq<Vehicle>, log: seq<LogEntry>, d: Detection): (s: Step)
    ensures |s.log| == |log| + 1 && s.log[..|log|] == log
    ensures s.log[|log|] == LogEntry(d.stamp, d.plate, TollCents, s.row.status, Basename(d.evidence))
    ensures s.row.plate == d.plate
    ensures |s.registry| == |reg|
  {
    var o := Decide(reg, d.plate);
    Step(o.registry, log + [Record(d, o.row.status)], o.row)
  }

  /** The decision: a plate no record carries is Unregistered, and only
      Auto-Paid changes the registry. */
  lemma ProcessPlateDecision(reg: seq<Vehicle>, log: seq<LogEntry>, d: Detection)
    ensures var s := ProcessPlate(reg, log, d);
      && (s.row.status == Unregistered <==> forall j :: 0 <= j < |reg| ==> reg[j].plate != d.plate)
      && (s.row.status != AutoPaid ==> s.registry == reg)
  {
    FindFirst(reg, d.plate);
  }

  /** For a registered plate the first matching record's owner is reported,
      and a balance that does not read as a number gives InvalidBalance. */
  lemma ProcessPlateMatched(reg: seq<Vehicle>, log: seq<LogEntry>, d: Detection, i: nat)
    requires FindVehicle(reg, d.plate) == Some(i)
    ensures var s := ProcessPlate(reg, log, d);
      && s.row.owner == reg[i].owner
      && (s.row.status == InvalidBalance <==> ParseBalance(reg[i].balance).None?)
  {
  }

  /** For a registered plate whose balance reads as a number: Auto-Paid
      exactly when the balance covers the toll, and then the matched record's
      balance drops by exactly the toll, is rewritten by `str()`, and nothing
      else in the registry changes; otherwise LowBalance with the registry
      untouched. A charge never drives a balance below zero. */
  lemma ChargeExact(reg: seq<Vehicle>, log: seq<LogEntry>, d: Detection, i: nat, c: int)
    requires FindVehicle(reg, d.plate) == Some(i)
    requires ParseBalance(reg[i].balance) == Some(c)
    ensures var s := ProcessPlate(reg, log, d);
      && (s.row.status == AutoPaid <==> c >= TollCents)
      && (s.row.status == AutoPaid ==>
            && s.registry == reg[i := reg[i].(balance := FloatText(c - TollCents))]
            && s.row.balance == Paid(c - TollCents)
            && c - TollCents >= 0)
      && (s.row.status == LowBalance <==> c < TollCents)
      && (s.row.status == LowBalance ==> s.registry == reg && s.row.balance == Current(c))
  {
  }

  /** Toll processing never touches a plate, an owner or a vehicle type. */
  lemma ProcessPlateKeepsIdentity(reg: seq<Vehicle>, log: seq<LogEntry>, d: Detection)
    ensures var s := ProcessPlate(reg, log, d);
      forall j :: 0 <= j < |reg| ==>
        && s.registry[j].plate == reg[j].plate
        && s.registry[j].owner == reg[j].owner
        && s.registry[j].kind == reg[j].kind
  {
  }

  /** Toll processing keeps the registry invariant. */
  lemma ProcessPlateWellFormed(reg: seq<Vehicle>, log: seq<LogEntry>, d: Detection)
    requires WellFormed(reg)
    ensures WellFormed(ProcessPlate(reg, log, d).registry)
  {
  }

  /** Money is conserved: the registry total drops by the toll on Auto-Paid
      and stays put otherwise. */
  lemma ProcessPlateLedger(reg: seq<Vehicle>, log: seq<LogEntry>, d: Detection)
    ensures var s := ProcessPlate(reg, log, d);
      TotalCents(s.registry) + (if s.row.status == AutoPaid then TollCents else 0) == TotalCents(reg)
  {
    var s := ProcessPlate(reg, log, d);
    if s.row.status == AutoPaid {
      var i := FindVehicle(reg, d.plate).value;
      var c := ParseBalance(reg[i].balance).value;
      TotalUpdate(reg, i, reg[i].(balance := FloatText(c - TollCents)));
    }
  }

  /** A registered plate holding any character other than an upper-case
      letter or digit can never be matched by a plate read from an image. */
  lemma UnreachablePlate(reg: seq<Vehicle>, i: nat, fragments: seq<string>)
    requires i < |reg|
    requires !IsPlateText(reg[i].plate)
    ensures FindVehicle(reg, Normalize(fragments)) != Some(i)
  {
  }

  /** The state after processing a batch of plates. */
  datatype Batch = Batch(registry: seq<Vehicle>, log: seq<LogEntry>, rows: seq<Row>)

  /** The loop of `select_and_process_image`: the plates of one image are
      processed in order, each against the registry its predecessor left. */
  function ProcessAll(reg: seq<Vehicle>, log: seq<LogEntry>, dets: seq<Detection>): (b: Batch)
    ensures |b.log| == |log| + |dets| && b.log[..|log|] == log
    ensures |b.rows| == |dets|
    ensures |b.registry| == |reg|
    decreases |dets|
  {
    if dets == [] then Batch(reg, log, [])
    else
      var s := ProcessPlate(reg, log, dets[0]);
      var rest := ProcessAll(s.registry, s.log, dets[1..]);
      Batch(rest.registry, rest.log, [s.row] + rest.rows)
  }

  /** The k-th plate of the batch yields the k-th new log entry and the k-th
      row, and they agree on plate, time, amount, status and evidence. */
  lemma {:induction false} ProcessAllEntries(reg: seq<Vehicle>, log: seq<LogEntry>, dets: seq<Detection>)
    ensures var b := ProcessAll(reg, log, dets);
      forall k :: 0 <= k < |dets| ==>
        && b.rows[k].plate == dets[k].plate
        && b.log[|log| + k] == LogEntry(dets[k].stamp, dets[k].plate, TollCents, b.rows[k].status, Basename(dets[k].evidence))
    decreases |dets|
  {
    if dets != [] {
      var s := ProcessPlate(reg, log, dets[0]);
      var rest := ProcessAll(s.registry, s.log, dets[1..]);
      ProcessAllEntries(s.registry, s.log, dets[1..]);
      ProcessAllCons(reg, log, dets);
      var b := ProcessAll(reg, log, dets);
      forall k | 0 <= k < |dets|
        ensures b.rows[k].plate == dets[k].plate
        ensures b.log[|log| + k] == LogEntry(dets[k].stamp, dets[k].plate, TollCents, b.rows[k].status, Basename(dets[k].evidence))
      {
        if k == 0 {
          FirstEntry(s, rest, log);
        } else {
          LaterEntry(s, rest, dets, log, k);
        }
      }
    }
  }

  /** The first plate's entry survives the rest of the batch. */
  lemma FirstEntry(s: Step, rest: Batch, log: seq<LogEntry>)
    requires |s.log| == |log| + 1
    requires |s.log| <= |rest.log| && rest.log[..|s.log|] == s.log
    ensures rest.log[|log|] == s.log[|log|]
  {
  }

  /** A later plate's entry and row are those of the rest of the batch, shifted by one. */
  lemma LaterEntry(s: Step, rest: Batch, dets: seq<Detection>, log: seq<LogEntry>, k: nat)
    requires |s.log| == |log| + 1
    requires 0 < k < |dets| && |rest.rows| == |dets| - 1 && |rest.log| == |s.log| + |dets| - 1
    requires forall m :: 0 <= m < |dets[1..]| ==>
      && rest.rows[m].plate == dets[1..][m].plate
      && rest.log[|s.log| + m] == LogEntry(dets[1..][m].stamp, dets[1..][m].plate, TollCents, rest.rows[m].status, Basename(dets[1..][m].evidence))
    ensures ([s.row] + rest.rows)[k].plate == dets[k].plate
    ensures rest.log[|log| + k] == LogEntry(dets[k].stamp, dets[k].plate, TollCents, ([s.row] + rest.rows)[k].status, Basename(dets[k].evidence))
  {
  }

  /** Plates, owners and vehicle types survive a whole batch. */
  lemma {:induction false} ProcessAllKeepsIdentity(reg: seq<Vehicle>, log: seq<LogEntry>, dets: seq<Detection>)
    ensures var b := ProcessAll(reg, log, dets);
      forall j :: 0 <= j < |reg| ==>
        && b.registry[j].plate == reg[j].plate
        && b.registry[j].owner == reg[j].owner
        && b.registry[j].kind == reg[j].kind
    decreases |dets|
  {
    if dets != [] {
      var s := ProcessPlate(reg, log, dets[0]);
      ProcessPlateKeepsIdentity(reg, log, dets[0]);
      ProcessAllKeepsIdentity(s.registry, s.log, dets[1..]);
    }
  }

  /** A batch keeps the registry invariant. */
  lemma {:induction false} ProcessAllWellFormed(reg: seq<Vehicle>, log: seq<LogEntry>, dets: seq<Detection>)
    requires WellFormed(reg)
    ensures WellFormed(ProcessAll(reg, log, dets).registry)
    decreases |dets|
  {
    if dets != [] {
      var s := ProcessPlate(reg, log, dets[0]);
      ProcessPlateWellFormed(reg, log, dets[0]);
      ProcessAllWellFormed(s.registry, s.log, dets[1..]);
    }
  }

  /** The number of Auto-Paid entries in a stretch of log. */
  function PaidCount(entries: seq<LogEntry>): nat {
    if entries == [] then 0
    else (if entries[0].status == AutoPaid then 1 else 0) + PaidCount(entries[1..])
  }

  /** Money is conserved over a batch: the registry total drops by the toll
      once for every Auto-Paid entry the batch logged. */
  lemma {:induction false} ProcessAllLedger(reg: seq<Vehicle>, log: seq<LogEntry>, dets: seq<Detection>)
    ensures var b := ProcessAll(reg, log, dets);
      TotalCents(reg) == TotalCents(b.registry) + TollCents * PaidCount(b.log[|log|..])
    decreases |dets|
  {
    var b := ProcessAll(reg, log, dets);
    if dets == [] {
      assert b.log[|log|..] == [];
    } else {
      var s := ProcessPlate(reg, log, dets[0]);
      ProcessPlateLedger(reg, log, dets[0]);
      var rest := ProcessAll(s.registry, s.log, dets[1..]);
      ProcessAllLedger(s.registry, s.log, dets[1..]);
      assert b.log == rest.log;
      PaidCountSplit(log, s.log, rest.log);
    }
  }

  /** Counting the paid entries past `log` in a log that extends `mid`, which
      extends `log` by one entry: that entry, then the rest. */
  lemma PaidCountSplit(log: seq<LogEntry>, mid: seq<LogEntry>, all: seq<LogEntry>)
    requires |mid| == |log| + 1 && |mid| <= |all| && all[..|mid|] == mid
    ensures PaidCount(all[|log|..])
      == (if mid[|log|].status == AutoPaid then 1 else 0) + PaidCount(all[|mid|..])
  {
  }

  /** A batch is its first plate followed by the rest of the batch. */
  lemma ProcessAllCons(reg: seq<Vehicle>, log: seq<LogEntry>, dets: seq<Detection>)
    requires dets != []
    ensures var s := ProcessPlate(reg, log, dets[0]);
      var rest := ProcessAll(s.registry, s.log, dets[1..]);
      ProcessAll(reg, log, dets) == Batch(rest.registry, rest.log, [s.row] + rest.rows)
  {
  }

  /** One pass of a registered vehicle whose balance covers the toll: it is
      Auto-Paid and only its balance changes, dropping by the toll. */
  lemma ChargeStep(reg: seq<Vehicle>, plate: string, i: nat, c: int)
    requires i < |reg|
    requires FindVehicle(reg, plate) == Some(i)
    requires ParseBalance(reg[i].balance) == Some(c) && c >= TollCents
    ensures var o := Decide(reg, plate);
      && o.row.status == AutoPaid
      && o.registry == reg[i := reg[i].(balance := FloatText(c - TollCents))]
  {
  }

  /** Rewriting one record's balance leaves the lookup of any plate where it was. */
  lemma FindAfterCharge(reg: seq<Vehicle>, i: nat, b: BalanceField, plate: string)
    requires i < |reg|
    ensures FindVehicle(reg[i := reg[i].(balance := b)], plate) == FindVehicle(reg, plate)
  {
    FindSamePlates(reg, reg[i := reg[i].(balance := b)], plate);
  }

  /** One pass of a vehicle whose balance covers the toll leaves it findable
      where it was, with the balance one toll lower. */
  lemma ChargeOnce(reg: seq<Vehicle>, log: seq<LogEntry>, d: Detection, i: nat, c: int)
    requires FindVehicle(reg, d.plate) == Some(i)
    requires ParseBalance(reg[i].balance) == Some(c) && c >= TollCents
    ensures var s := ProcessPlate(reg, log, d);
      && s.row.status == AutoPaid
      && FindVehicle(s.registry, d.plate) == Some(i)
      && ParseBalance(s.registry[i].balance) == Some(c - TollCents)
  {
    ChargeStep(reg, d.plate, i, c);
    FindAfterCharge(reg, i, FloatText(c - TollCents), d.plate);
  }

  /** Charging the same vehicle again and again: while the balance covers
      the toll every pass is Auto-Paid, and the balance ends exactly one toll
      lower per pass. */
  lemma {:induction false} RepeatedCharges(reg: seq<Vehicle>, log: seq<LogEntry>, dets: seq<Detection>, plate: string, i: nat, c: int)
    requires FindVehicle(reg, plate) == Some(i)
    requires ParseBalance(reg[i].balance) == Some(c)
    requires forall k :: 0 <= k < |dets| ==> dets[k].plate == plate
    requires |dets| * TollCents <= c
    ensures var b := ProcessAll(reg, log, dets);
      && ParseBalance(b.registry[i].balance) == Some(c - |dets| * TollCents)
      && forall k :: 0 <= k < |dets| ==> b.rows[k].status == AutoPaid
    decreases |dets|
  {
    if dets != [] {
      var s := ProcessPlate(reg, log, dets[0]);
      assert dets[0].plate == plate;
      ChargeOnce(reg, log, dets[0], i, c);
      var rest := ProcessAll(s.registry, s.log, dets[1..]);
      RepeatedCharges(s.registry, s.log, dets[1..], plate, i, c - TollCents);
      ProcessAllCons(reg, log, dets);
      AllAutoPaid(s.row, rest.rows);
    }
  }

  /** Prefixing an Auto-Paid row to Auto-Paid rows keeps them all Auto-Paid. */
  lemma AllAutoPaid(first: Row, rows: seq<Row>)
    requires first.status == AutoPaid
    requires forall k :: 0 <= k < |rows| ==> rows[k].status == AutoPaid
    ensures forall k :: 0 <= k < |[first] + rows| ==> ([first] + rows)[k].status == AutoPaid
  {
  }

  /** One region of the detector's output: whether its crop is empty, the
      text fragments the recogniser returned for it, the path its crop was
      saved under, and the clock reading taken when its plate is processed. */
  datatype Region = Region(cropEmpty: bool, fragments: seq<string>, evidence: string, stamp: string)

  /** The plates worth charging, in region order: regions with an empty crop
      or with no alphanumeric text are skipped. */
  function CollectPlates(regions: seq<Region>): (dets: seq<Detection>)
    ensures |dets| <= |regions|
    ensures forall k :: 0 <= k < |dets| ==> dets[k].plate != [] && IsPlateText(dets[k].plate)
  {
    if regions == [] then []
    else
      var r := regions[0];
      var plate := Normalize(r.fragments);
      (if !r.cropEmpty && plate != [] then [Detection(plate, r.evidence, r.stamp)] else [])
        + CollectPlates(regions[1..])
  }

  lemma {:induction false} CollectAppend(a: seq<Region>, b: seq<Region>)
    ensures CollectPlates(a + b) == CollectPlates(a) + CollectPlates(b)
    decreases |a|
  {
    if a == [] {
      assert a + b == b;
    } else {
      assert (a + b)[1..] == a[1..] + b;
      CollectAppend(a[1..], b);
    }
  }

  /** A single region yields one plate when its crop is non-empty and its
      text holds an alphanumeric character, and nothing otherwise. */
  lemma CollectOne(r: Region)
    ensures |CollectPlates([r])| == if !r.cropEmpty && Normalize(r.fragments) != [] then 1 else 0
    ensures !r.cropEmpty && Normalize(r.fragments) != [] ==>
      CollectPlates([r])[0] == Detection(Normalize(r.fragments), r.evidence, r.stamp)
  {
  }

  /** What the image pass told the operator. */
  datatype ImageOutcome =
    | ImageUnreadable              // the image file could not be decoded
    | NoObjects                    // the detector returned no box list
    | NoPlatesRead                 // boxes, but no region gave readable text
    | Processed(rows: seq<Row>)    // one results row per plate charged or refused

  datatype ImageRun = ImageRun(registry: seq<Vehicle>, log: seq<LogEntry>, outcome: ImageOutcome)

  /** What the detector saw in the selected image: nothing decodable, no
      box list at all, or a list of regions. */
  datatype Scene = Undecodable | Decoded(boxes: Option<seq<Region>>)

  /** `select_and_process_image` past the file dialog and the detector call. */
  function ProcessImage(reg: seq<Vehicle>, log: seq<LogEntry>, scene: Scene): (run: ImageRun)
    ensures scene.Undecodable? ==> run.outcome == ImageUnreadable
    ensures scene == Decoded(None) ==> run.outcome == NoObjects
    ensures scene.Decoded? && scene.boxes.Some? && CollectPlates(scene.boxes.value) == [] ==>
      run.outcome == NoPlatesRead
    ensures run.outcome.Processed? <==>
      scene.Decoded? && scene.boxes.Some? && CollectPlates(scene.boxes.value) != []
    ensures !run.outcome.Processed? ==> run.registry == reg && run.log == log
    ensures scene.Decoded? && scene.boxes.Some? ==>
      |run.log| == |log| + |CollectPlates(scene.boxes.value)|
    ensures |log| <= |run.log| && run.log[..|log|] == log
    ensures run.outcome.Processed? ==> |run.outcome.rows| == |run.log| - |log| > 0
    ensures |run.registry| == |reg|
  {
    match scene
    case Undecodable => ImageRun(reg, log, ImageUnreadable)
    case Decoded(None) => ImageRun(reg, log, NoObjects)
    case Decoded(Some(regions)) =>
      var dets := CollectPlates(regions);
      if dets == [] then ImageRun(reg, log, NoPlatesRead)
      else
        var b := ProcessAll(reg, log, dets);
        ImageRun(b.registry, b.log, Processed(b.rows))
  }

  /** Processing an image keeps the registry invariant. */
  lemma ProcessImageWellFormed(reg: seq<Vehicle>, log: seq<LogEntry>, scene: Scene)
    requires WellFormed(reg)
    ensures WellFormed(ProcessImage(reg, log, scene).registry)
  {
    if scene.Decoded? && scene.boxes.Some? {
      ProcessAllWellFormed(reg, log, CollectPlates(scene.boxes.value));
    }
  }

  /** On a processed image every collected plate is charged against the live
      registry in order: the k-th new entry and the k-th row name the k-th
      plate, the entry carries the row's status and the crop's file name, and
      the registry total drops by the toll once per Auto-Paid entry. */
  lemma ProcessImageEntries(reg: seq<Vehicle>, log: seq<LogEntry>, scene: Scene)
    requires scene.Decoded? && scene.boxes.Some?
    ensures var run := ProcessImage(reg, log, scene);
      var dets := CollectPlates(scene.boxes.value);
      && TotalCents(reg) == TotalCents(run.registry) + TollCents * PaidCount(run.log[|log|..])
      && (run.outcome.Processed? ==>
            forall k :: 0 <= k < |dets| ==>
              && run.outcome.rows[k].plate == dets[k].plate
              && run.log[|log| + k] == LogEntry(dets[k].stamp, dets[k].plate, TollCents,
                                                run.outcome.rows[k].status, Basename(dets[k].evidence)))
  {
    var dets := CollectPlates(scene.boxes.value);
    if dets != [] {
      ProcessAllLedger(reg, log, dets);
      ProcessAllEntries(reg, log, dets);
    } else {
      assert log[|log|..] == [];
    }
  }
}

=== FILE: wrappers.dfy ===
/** Absence and failure values shared by the other modules. */
module Wrappers {

  /** A value that may be missing: a lookup that finds nothing, or a
      balance text that does not read as a number. */
  datatype Option<+T> = None | Some(value: T)

  /** The outcome of an operation that can be refused with a reason. */
  datatype Result<+T, +E> = Ok(value: T) | Err(error: E)
}
